=== FILE: README.md ===
# Feature engineering for hotel bookings, modelled in Dafny

This project models `FeatureEngineering`, a class that derives new columns of
a bookings table in place:

- `create_month_year` turns each month name into its number (January = 1), turns
  each year into the text between its first "20" and the next "20" (or the end),
  and adds the key column `YearMonth`, built as `"<year text>/<month number>"` with
  no zero padding.
- `create_duration` adds `duration`, the row-wise sum of the weekend stays and the
  week stays.
- `binning` writes the quantile bucket of each row to `bin_<prop>` and returns one
  `(low, high)` label per pair of neighbouring bin edges.

The table is a `Frame`, a map from column name to that column's cells. A cell
(`Values.Value`) is an integer or a string. Every exception the code can raise
is returned instead as an `Error`:

- `KeyError`: a column is missing.
- `ValueError`: `list.index` was given a value that is not a month name.
- `IndexError`: `split("20")[1]` was taken of a text without "20".
- `TypeError`: `+` was applied to cells that do not add.

The files:

- `pystr.dfy` models the Python built-ins the code relies on: `str(n)` for an
  integer, `str.split` and `list.index`. Each has a partner that is proved
  against it: a decimal reader (`DigitsValue`) for `str(n)`, `sep.join` for
  `str.split`, and the absence of the value before the result for
  `list.index`. It also holds `LastIndexOf`, the right-to-left search that
  reads a `YearMonth` key back.
- `values.dfy` defines cells, errors, `str()` of a cell and `+` of two cells.
- `transforms.dfy` holds the per-row functions (`MonthIndex`, `SplitSegment1`,
  `YearMonthKey`), pandas' row-wise `map` (`MapRows`), and one function per
  transform. Each transform function gives the outcome and the frame the
  transform leaves behind. The lemmas about the transforms are in this file too.
- `feature_engineering.dfy` holds the class `FeatureEngineering` with the field
  `dataFrame`. Each method assigns the source's columns in the source's order
  and is proved to end in exactly the state that the matching function
  describes.

Notes on what the code does:

- The year is not "everything after the first 20". It is the second part of
  `split("20")`, which stops at the next "20". So 2020 gives "", not "20".
- A year whose text has no "20" raises an index error. It is not a silent
  wrong value.
- `create_month_year` is not all-or-nothing. The month column is assigned before
  the year column is read. If the year step then fails, the months are already
  converted (`MonthYearBadYear`).
- A second `create_month_year` fails only when the table has at least one row.
  Mapping an empty column succeeds.

## Model

| member | source | states |
|---|---|---|
| `PyStr.Find` | feature_engineering.py:37 | the result is the first occurrence of the separator at or after the start index, or there is none |
| `PyStr.Split` | feature_engineering.py:37 | `str.split` with a non-empty separator always gives at least one part |
| `PyStr.SplitJoin` | feature_engineering.py:37 | joining the parts of a split with the separator gives back the original string |
| `PyStr.SplitPartsFree` | feature_engineering.py:37 | no part of a split contains the separator |
| `PyStr.SplitHasSecondPart` | feature_engineering.py:37 | a split has a part at index 1 exactly when the separator occurs in the string |
| `PyStr.SplitSecondPart` | feature_engineering.py:37 | part 1 is the text right after the first occurrence, up to the next occurrence or the end, and it holds no occurrence itself |
| `PyStr.IndexOf` | feature_engineering.py:34 | `list.index` gives the first position that holds the value, and fails exactly when the value is absent |
| `PyStr.NatToString` | feature_engineering.py:41-43 | `str` of a non-negative integer is a non-empty string of decimal digits with no leading zero |
| `PyStr.NatToStringRoundTrip` | feature_engineering.py:41-43 | reading the rendered digits back gives the number |
| `PyStr.IntToString` | feature_engineering.py:37 | `str(y)` of a non-negative integer is its decimal digits, and of a negative one a "-" followed by the digits of its magnitude; the digits read back as the value; zero is "0" and a non-zero value has no leading zero |
| `PyStr.NatToStringWidth` | feature_engineering.py:40-44 | a month number below 10 renders as one digit and one from 10 to 12 as two (no padding) |
| `Transforms.MapRows` | feature_engineering.py:32-38 | a row-wise `map` succeeds exactly when the lambda succeeds on every row; it then keeps the row count and holds the lambda's value in each row; otherwise it fails with the error of the first failing row |
| `Transforms.MonthIndex` | feature_engineering.py:29-34 | `months.index(m) + 1` succeeds exactly for a string that is one of the twelve names; its result r is in 1..12 and is the name's place (`MonthNames[r-1] == m`); anything else, integers included, is a `ValueError` |
| `Transforms.MonthNamesNumbered` | feature_engineering.py:29-34 | the k-th name (January first) maps to k+1 |
| `Transforms.MonthNamesDistinct` | feature_engineering.py:29 | the twelve month names are pairwise different |
| `Transforms.MonthNamesCapitalised` | feature_engineering.py:29 | every month name starts with a capital letter |
| `Transforms.MonthIndexCaseSensitive` | feature_engineering.py:34 | a name starting with a lower-case letter (e.g. "march") is not a month and raises `ValueError` |
| `Transforms.SplitSegment1` | feature_engineering.py:37 | `str(y).split("20")[1]` fails only with `IndexError` of the year's own text, and a segment is at least the separator's two characters shorter than that text; when it succeeds and what the segment is are stated by `SplitSegment1Fails` and `SplitSegment1Between` |
| `Transforms.SplitSegment1Fails` | feature_engineering.py:36-38 | the year split succeeds exactly when "20" occurs in the year's text, and otherwise raises `IndexError` |
| `Transforms.SplitSegment1Between` | feature_engineering.py:37 | for the first "20" at i, the year text starts at i+2, holds no "20", and is followed by the end of the text or by the next "20" |
| `Transforms.YearSplitExamples` | feature_engineering.py:37 | "2023" gives "23" and "2000" gives "00" |
| `Transforms.YearSplitRepeated` | feature_engineering.py:37 | "2020" gives the empty string |
| `Transforms.YearSplitMissing` | feature_engineering.py:37 | "1999" raises `IndexError` |
| `Transforms.YearSplitNegative` | feature_engineering.py:36-38 | a negative integer year keeps its sign through `str()`: -2015 becomes "-2015" and its segment is "15" |
| `Transforms.YearMonthKey` | feature_engineering.py:40-44 | a key is a string that starts with the year's text followed by "/", and for a non-negative month number that "/" is the key's last one, which is where `YearMonthKeyRoundTrip` reads it back |
| `Transforms.YearMonthKeyRoundTrip` | feature_engineering.py:40-44 | a key built from any year text and a month number parses back, at its last "/", into that year text and month number |
| `Transforms.YearMonthKeyExamples` | feature_engineering.py:40-44 | year "23" with month 3 gives "23/3" and with month 10 gives "23/10" |
| `Transforms.KeyColumnReadsBack` | feature_engineering.py:40-44 | the `YearMonth` column has one key per row, and each key of a year text and a month number reads back, at its last "/", as exactly that row's year text and month number |
| `Transforms.MonthYear` | feature_engineering.py:23-44 | the frame stays a table; on success both source columns existed and `YearMonth` is added or replaced (no other column appears); a failure adds no column; columns other than the three are never changed, and a failure changes at most the month column |
| `Transforms.MonthYearPasses` | feature_engineering.py:29-38 | `create_month_year` succeeds exactly when both columns exist, every month cell is a month name, and every year's text contains "20" |
| `Transforms.MonthYearRow` | feature_engineering.py:32-44 | after success, row i holds the month number, the year split, and the key `"<year split>/<month number>"` |
| `Transforms.MonthYearKeepsRows` | feature_engineering.py:32-44 | the row count is unchanged, whatever the outcome |
| `Transforms.MonthYearBadMonth` | feature_engineering.py:32-34 | a cell that is not a month name raises `ValueError` and leaves the frame unchanged |
| `Transforms.MonthYearBadYear` | feature_engineering.py:32-38 | a year without "20" raises `IndexError` after the months are converted: the years are kept, the months are already numbers, and no column is added |
| `Transforms.MonthYearTwiceFails` | feature_engineering.py:32-34 | on a non-empty frame a second call fails on the first row's (now integer) month and changes nothing |
| `Transforms.SumRows` | feature_engineering.py:54-57 | the row-wise `+` succeeds exactly when every row's pair adds; it then keeps the row count and holds each row's sum; otherwise it fails with some row's `TypeError` |
| `Transforms.WithDuration` | feature_engineering.py:46-57 | the frame stays a table; on success both source columns existed and only `duration` is added or replaced; a failure changes nothing |
| `Transforms.DurationPasses` | feature_engineering.py:54-57 | `create_duration` succeeds exactly when both stay columns exist and every row's pair adds |
| `Transforms.DurationRow` | feature_engineering.py:54-57 | after success, `duration[i]` is `stays_in_weekend_nights[i] + stays_in_week_nights[i]` for integer stays |
| `Transforms.DurationIdempotent` | feature_engineering.py:54-57 | running `create_duration` on its own result gives the same outcome and frame |
| `Transforms.BinColumn` | feature_engineering.py:73 | the new column is `"bin_"` followed by the property's name, so it starts with `"bin_"` and is never the property's own column |
| `Transforms.BinLabels` | feature_engineering.py:81 | there is one label fewer than there are edges (none for fewer than two), and label i is `(e[i], e[i+1])` |
| `Transforms.BinLabelsCover` | feature_engineering.py:74-81 | for strictly increasing edges, the labels are non-empty ranges, each starts where the previous one ends, and together they run from the first edge to the last |
| `Engineering.FeatureEngineering.constructor` | feature_engineering.py:17-21 | holds the given frame unchanged |
| `Engineering.FeatureEngineering.CreateMonthYear` | feature_engineering.py:23-44 | the three in-place assignments, in order, leave the outcome and frame of `MonthYear` on the old frame, and keep the table rectangular |
| `Engineering.FeatureEngineering.CreateDuration` | feature_engineering.py:46-57 | the in-place assignment leaves the outcome and frame of `WithDuration` on the old frame |
| `Engineering.FeatureEngineering.Binning` | feature_engineering.py:69-82 | a missing property raises `KeyError` and changes nothing; otherwise `bin_<prop>` holds the bucket codes, the result is the frame and `BinLabels(edges)`, and, given that qcut's codes are bucket indices, every code indexes a label |

## Left out

- `one_hot_encoding` (feature_engineering.py:59-66) is not modelled. It is one call to pandas' `get_dummies`, whose column naming and ordering belong to the library.
- Binning: the quantile cut (`qcut` with ten quantiles and duplicate edges dropped) is library floating-point code. Its results enter the method as the parameters `codes` and `edges`. The method requires what the library guarantees: one code per row, each code a bucket index.
- Binning: does not model the `:.1f` formatting of labels. A label is the pair of its edges (`Label(low, high)`).
- Binning: does not model the library's own failures (a non-numeric column, NaN codes).
- Transforms.SumRows: does not model 64-bit wrap-around of integer columns. Integers are unbounded, and stay counts are far from the limit.
- Float cells are not modelled. For example, `str(2015.0)` would give "2015.0".
- Does not model pandas' alignment by index label. Columns are aligned by position.
- Column order is not modelled. A frame is a map, so where `YearMonth`, `duration` or `bin_<prop>` is placed among the columns is not captured.
- Engineering.FeatureEngineering.constructor: does not model that the caller and the object share the one DataFrame (aliasing). A frame is a value.
- `calendar.month_name` is taken as the fixed English names. Locale settings are not modelled.
- Dataset loading, the downstream model and any driver script are outside this class, and none of them is part of this model.

=== FILE: feature_engineering.dfy ===
/**
 * The `FeatureEngineering` class: it holds one table and its transforms
 * rewrite or add columns of that table in place. Each method performs the
 * source's assignments in the source's order and is proved to leave exactly
 * the frame (and report exactly the outcome) that the matching function of
 * module Transforms describes; the properties of the transforms are proved
 * about those functions.
 */
module Engineering {
  import opened Values
  import opened Transforms

  class FeatureEngineering {
    var dataFrame: Frame

    /** The held frame is a table: all its columns have the same number of rows. */
    ghost predicate Valid()
      reads this
    {
      Rectangular(dataFrame)
    }

    /** Keeps the given frame as it is; nothing is checked or copied. */
    constructor (dataFrame: Frame)
      requires Rectangular(dataFrame)
      ensures Valid() && this.dataFrame == dataFrame
    {
      this.dataFrame := dataFrame;
    }

    /**
     * `create_month_year`: month names become numbers, years become their
     * segment after the first "20", and `YearMonth` is added. A failure is
     * reported after whatever assignments were already made.
     */
    method CreateMonthYear() returns (outcome: Outcome)
      requires Valid()
      modifies this
      ensures Valid()
      ensures Step(outcome, dataFrame) == MonthYear(old(dataFrame))
    {
      ghost var before := dataFrame;
      if MonthCol !in dataFrame {
        return Fail(KeyError(MonthCol));
      }
      var months := MapRows(dataFrame[MonthCol], MonthCell);
      if months.Err? {
        return Fail(months.error);
      }
      dataFrame := dataFrame[MonthCol := months.value];
      ghost var afterMonths := dataFrame;
      assert MonthYear(before).outcome.Fail? ==> MonthYear(before).frame == afterMonths;

      if YearCol !in dataFrame {
        return Fail(KeyError(YearCol));
      }
      var years := MapRows(dataFrame[YearCol], YearCell);
      if years.Err? {
        return Fail(years.error);
      }
      dataFrame := dataFrame[YearCol := years.value];

      dataFrame := dataFrame[KeyCol := KeyColumn(years.value, months.value)];
      outcome := Pass;
    }

    /** `create_duration`: `duration` becomes the row-wise sum of the two stay columns. */
    method CreateDuration() returns (outcome: Outcome)
      requires Valid()
      modifies this
      ensures Valid()
      ensures Step(outcome, dataFrame) == WithDuration(old(dataFrame))
    {
      if WeekendCol !in dataFrame {
        return Fail(KeyError(WeekendCol));
      }
      if WeekCol !in dataFrame {
        return Fail(KeyError(WeekCol));
      }
      var sum := SumRows(dataFrame[WeekendCol], dataFrame[WeekCol]);
      if sum.Err? {
        return Fail(sum.error);
      }
      dataFrame := dataFrame[DurationCol := sum.value];
      outcome := Pass;
    }

    /**
     * `binning`: store the bucket of every row in the column `bin_<prop>` and
     * return the frame with one label per bucket. The quantile cut itself is a
     * library call, so its results come in as `codes` (one bucket per row) and
     * `edges` (the retained bin edges); a missing `prop` fails before the cut.
     */
    method Binning(prop: string, codes: seq<Value>, edges: seq<real>) returns (r: Result<(Frame, seq<Label>)>)
      requires Valid()
      requires prop in dataFrame ==> |codes| == |dataFrame[prop]|
      requires forall i :: 0 <= i < |codes| ==> codes[i].Int? && 0 <= codes[i].i < |edges| - 1
      modifies this
      ensures Valid()
      ensures prop !in old(dataFrame) ==> r == Err(KeyError(prop)) && dataFrame == old(dataFrame)
      ensures prop in old(dataFrame) ==>
        dataFrame == old(dataFrame)[BinColumn(prop) := codes]
        && r == Ok((dataFrame, BinLabels(edges)))
        && forall i :: 0 <= i < |codes| ==> dataFrame[BinColumn(prop)][i].i < |r.value.1|
    {
      if prop !in dataFrame {
        return Err(KeyError(prop));
      }
      dataFrame := dataFrame[BinColumn(prop) := codes];
      var labels := BinLabels(edges);
      r := Ok((dataFrame, labels));
    }
  }
}

=== FILE: pystr.dfy ===
/**
 * The few Python built-ins on strings and lists that the feature transforms
 * rely on: `str(n)` of an integer, `s.split(sep)` with a non-empty separator,
 * and `xs.index(x)`. Each comes with a partner and the lemmas that connect the
 * two: `str(n)` with a decimal reader (`DigitsValue`), `s.split(sep)` with
 * `sep.join`, and `xs.index(x)` with the absence of `x` before the result.
 * The right-to-left search `LastIndexOf` at the end is what reads a
 * `YearMonth` key back in module Transforms.
 */
module PyStr {

  datatype Option<T> = None | Some(value: T)

  // ---------------------------------------------------------------------------
  // Substring search and `str.split`
  // ---------------------------------------------------------------------------

  /** `sep` occurs in `s` starting at index `i`. */
  predicate OccursAt(s: string, sep: string, i: nat)
  {
    i + |sep| <= |s| && s[i..i + |sep|] == sep
  }

  /** Python's `sep in s`. */
  ghost predicate Contains(s: string, sep: string)
  {
    exists i: nat :: OccursAt(s, sep, i)
  }

  /** The first occurrence of `sep` in `s` at or after `from` (Python's `s.find(sep, from)`). */
  function Find(s: string, sep: string, from: nat): (r: Option<nat>)
    ensures r.Some? ==> from <= r.value && OccursAt(s, sep, r.value)
    ensures r.Some? ==> forall j: nat :: from <= j < r.value ==> !OccursAt(s, sep, j)
    ensures r.None? ==> forall j: nat :: from <= j ==> !OccursAt(s, sep, j)
    decreases |s| - from
  {
    if |s| < from + |sep| then None
    else if s[from..from + |sep|] == sep then Some(from)
    else Find(s, sep, from + 1)
  }

  /**
   * Python's `s.split(sep)` for a non-empty `sep`: cut `s` at the leftmost
   * occurrence of `sep`, then split what follows that occurrence the same way.
   * Occurrences never overlap, and a string without `sep` is one part.
   */
  function Split(s: string, sep: string): (parts: seq<string>)
    requires |sep| > 0
    ensures |parts| >= 1
    decreases |s|
  {
    match Find(s, sep, 0)
    case None => [s]
    case Some(i) => [s[..i]] + Split(s[i + |sep|..], sep)
  }

  /** Python's `sep.join(parts)`: the inverse of `Split`. */
  function Join(parts: seq<string>, sep: string): string
  {
    if |parts| == 0 then ""
    else if |parts| == 1 then parts[0]
    else parts[0] + sep + Join(parts[1..], sep)
  }

  /** Joining the parts back with the separator gives the original string. */
  lemma {:induction false} SplitJoin(s: string, sep: string)
    requires |sep| > 0
    ensures Join(Split(s, sep), sep) == s
    decreases |s|
  {
    match Find(s, sep, 0)
    case None =>
    case Some(i) =>
      var rest := s[i + |sep|..];
      var tail := Split(rest, sep);
      SplitJoin(rest, sep);
      JoinCons(s[..i], tail, sep);
      assert s == s[..i] + sep + rest;
  }

  lemma JoinCons(head: string, tail: seq<string>, sep: string)
    requires |tail| >= 1
    ensures Join([head] + tail, sep) == head + sep + Join(tail, sep)
  {
    assert ([head] + tail)[1..] == tail;
  }

  /** An occurrence inside a slice is an occurrence in the whole string, shifted. */
  lemma OccursInSlice(s: string, sep: string, lo: nat, hi: nat, j: nat)
    requires lo <= hi <= |s|
    ensures OccursAt(s[lo..hi], sep, j) ==> OccursAt(s, sep, lo + j)
  {
    if OccursAt(s[lo..hi], sep, j) {
      var u := s[lo..hi];
      assert forall m :: 0 <= m < |sep| ==> s[lo + j + m] == u[j + m] == sep[m];
      assert s[lo + j..lo + j + |sep|] == sep;
    }
  }

  /** The text before the first occurrence holds no occurrence. */
  lemma PrefixFree(s: string, sep: string, i: nat)
    requires |sep| > 0 && i <= |s|
    requires forall j: nat :: j < i ==> !OccursAt(s, sep, j)
    ensures forall j: nat :: !OccursAt(s[..i], sep, j)
  {
    forall j: nat ensures !OccursAt(s[..i], sep, j) {
      OccursInSlice(s, sep, 0, i, j);
    }
  }

  /** No part of a split contains the separator. */
  lemma {:induction false} SplitPartsFree(s: string, sep: string, k: nat)
    requires |sep| > 0 && k < |Split(s, sep)|
    ensures forall j: nat :: !OccursAt(Split(s, sep)[k], sep, j)
    decreases |s|
  {
    match Find(s, sep, 0)
    case None =>
    case Some(i) =>
      if k == 0 {
        PrefixFree(s, sep, i);
      } else {
        SplitPartsFree(s[i + |sep|..], sep, k - 1);
      }
  }

  /** A split has a second part exactly when the separator occurs. */
  lemma SplitHasSecondPart(s: string, sep: string)
    requires |sep| > 0
    ensures |Split(s, sep)| >= 2 <==> Contains(s, sep)
  {
    match Find(s, sep, 0)
    case None =>
    case Some(i) =>
      assert OccursAt(s, sep, i);
  }

  /**
   * The first part of a split is a prefix of the string, followed by the end
   * of the string or by an occurrence of the separator.
   */
  lemma SplitFirstPart(s: string, sep: string)
    requires |sep| > 0
    ensures var t := Split(s, sep)[0];
      |t| <= |s| && s[..|t|] == t && (|t| == |s| || OccursAt(s, sep, |t|))
  {
  }

  /** `Find` returns the first occurrence. */
  lemma FindFirst(s: string, sep: string, i: nat)
    requires OccursAt(s, sep, i)
    requires forall j: nat :: j < i ==> !OccursAt(s, sep, j)
    ensures Find(s, sep, 0) == Some(i)
  {
  }

  /** After the first occurrence, the split goes on with the split of the rest. */
  lemma SplitAfterFirst(s: string, sep: string, i: nat)
    requires |sep| > 0 && Find(s, sep, 0) == Some(i)
    ensures |Split(s, sep)| >= 2 && Split(s, sep)[1] == Split(s[i + |sep|..], sep)[0]
  {
  }

  /**
   * When `i` is the first occurrence of `sep`, the second part of the split is
   * the text right after it, up to the next occurrence or the end of `s`.
   */
  lemma {:induction false} SplitSecondPart(s: string, sep: string, i: nat)
    requires |sep| > 0
    requires OccursAt(s, sep, i)
    requires forall j: nat :: j < i ==> !OccursAt(s, sep, j)
    ensures |Split(s, sep)| >= 2
    ensures var t := Split(s, sep)[1];
      i + |sep| + |t| <= |s| && s[i + |sep|..i + |sep| + |t|] == t
      && (forall j: nat :: !OccursAt(t, sep, j))
      && (i + |sep| + |t| == |s| || OccursAt(s, sep, i + |sep| + |t|))
  {
    FindFirst(s, sep, i);
    SplitAfterFirst(s, sep, i);
    SuffixFirstPart(s, sep, i + |sep|);
  }

  /** The first part of the split of `s[b..]`, seen as a piece of `s`. */
  lemma SuffixFirstPart(s: string, sep: string, b: nat)
    requires |sep| > 0 && b <= |s|
    ensures var t := Split(s[b..], sep)[0];
      b + |t| <= |s| && s[b..b + |t|] == t
      && (forall j: nat :: !OccursAt(t, sep, j))
      && (b + |t| == |s| || OccursAt(s, sep, b + |t|))
  {
    var rest := s[b..|s|];
    assert s[b..] == rest;
    var t := Split(rest, sep)[0];
    SplitPartsFree(rest, sep, 0);
    SplitFirstPart(rest, sep);
    SliceOfSlice(s, b, |t|);
    if |t| < |rest| {
      OccursInSlice(s, sep, b, |s|, |t|);
    }
  }

  lemma SliceOfSlice(s: string, b: nat, n: nat)
    requires b + n <= |s|
    ensures s[b..|s|][..n] == s[b..b + n]
  {
  }

  // ---------------------------------------------------------------------------
  // `list.index`
  // ---------------------------------------------------------------------------

  /** Python's `xs.index(x)`: the first position of `x`, or nothing when absent. */
  function IndexOf<T(==)>(xs: seq<T>, x: T): (r: Option<nat>)
    ensures r.Some? ==> r.value < |xs| && xs[r.value] == x
    ensures r.Some? ==> forall j :: 0 <= j < r.value ==> xs[j] != x
    ensures r.None? <==> x !in xs
  {
    if |xs| == 0 then None
    else if xs[0] == x then Some(0)
    else match IndexOf(xs[1..], x)
      case None => None
      case Some(k) => Some(k + 1)
  }

  // ---------------------------------------------------------------------------
  // Decimal rendering, `str(n)` for an integer
  // ---------------------------------------------------------------------------

  predicate IsDigit(c: char)
  {
    48 <= c as int <= 57
  }

  /** `s.isdigit()` for ASCII digits. */
  predicate AllDigits(s: string)
  {
    forall k :: 0 <= k < |s| ==> IsDigit(s[k])
  }

  function DigitChar(d: nat): (c: char)
    requires d < 10
    ensures IsDigit(c)
  {
    (48 + d) as char
  }

  /** Python's `str(n)` for `n >= 0`: decimal digits, most significant first, no padding. */
  function NatToString(n: nat): (s: string)
    ensures |s| >= 1
    ensures forall k :: 0 <= k < |s| ==> IsDigit(s[k])
    ensures n > 0 ==> s[0] != '0'
    decreases n
  {
    if n < 10 then [DigitChar(n)]
    else NatToString(n / 10) + [DigitChar(n % 10)]
  }

  /**
   * Python's `str(i)` for any integer: a minus sign before the digits of a
   * negative value. Reading the digits back gives the magnitude, and a
   * non-zero value has no leading zero (zero is the single digit "0").
   */
  function IntToString(i: int): (s: string)
    ensures i >= 0 ==> |s| >= 1 && AllDigits(s) && DigitsValue(s) == i
    ensures i < 0 ==> |s| >= 2 && s[0] == '-' && AllDigits(s[1..]) && DigitsValue(s[1..]) == -i
    ensures i == 0 ==> s == "0"
    ensures i > 0 ==> s[0] != '0'
    ensures i < 0 ==> s[1] != '0'
  {
    if i < 0 then
      NatToStringRoundTrip(-i);
      assert ("-" + NatToString(-i))[1..] == NatToString(-i);
      "-" + NatToString(-i)
    else
      NatToStringRoundTrip(i);
      NatToString(i)
  }

  /** The value of a string of decimal digits: the partner of `NatToString`. */
  function DigitsValue(s: string): nat
    requires forall k :: 0 <= k < |s| ==> IsDigit(s[k])
  {
    if |s| == 0 then 0
    else assert IsDigit(s[|s| - 1]); DigitsValue(s[..|s| - 1]) * 10 + (s[|s| - 1] as int - 48)
  }

  /** Reading the rendered digits back gives the number. */
  lemma {:induction false} NatToStringRoundTrip(n: nat)
    ensures DigitsValue(NatToString(n)) == n
    decreases n
  {
    if n >= 10 {
      var s := NatToString(n);
      assert s[..|s| - 1] == NatToString(n / 10);
      NatToStringRoundTrip(n / 10);
    }
  }

  /** A number below 10 renders as one digit and one from 10 to 99 as two: no zero padding. */
  lemma NatToStringWidth(n: nat)
    ensures n < 10 ==> |NatToString(n)| == 1
    ensures 10 <= n < 100 ==> |NatToString(n)| == 2
  {
    if 10 <= n < 100 {
      assert NatToString(n) == NatToString(n / 10) + [DigitChar(n % 10)];
    }
  }

  // ---------------------------------------------------------------------------
  // Right-to-left search for one character
  // ---------------------------------------------------------------------------

  /** With no `c` after position `|a|`, the last `c` is the one there. */
  lemma {:induction false} LastIndexOfSeparator(a: string, c: char, b: string)
    requires c !in b
    ensures LastIndexOf(a + [c] + b, c) == Some(|a|)
    decreases |b|
  {
    var s := a + [c] + b;
    if |b| > 0 {
      var b' := b[..|b| - 1];
      assert s[|s| - 1] == b[|b| - 1];
      assert s[..|s| - 1] == a + [c] + b';
      LastIndexOfSeparator(a, c, b');
    }
  }

  /** Python's `s.rfind(c)`: the last position of `c` in `s`. */
  function LastIndexOf(s: string, c: char): (r: Option<nat>)
    ensures r.Some? ==> r.value < |s| && s[r.value] == c
    ensures r.Some? ==> forall k :: r.value < k < |s| ==> s[k] != c
    ensures r.None? <==> c !in s
  {
    if |s| == 0 then None
    else if s[|s| - 1] == c then Some(|s| - 1)
    else LastIndexOf(s[..|s| - 1], c)
  }
}

=== FILE: transforms.dfy ===
/**
 * The column transforms of `FeatureEngineering` as functions on a frame.
 *
 * A frame maps a column name to the column's cells, one per row. The per-row
 * work of `create_month_year` (the month lookup, the year split and the
 * `YearMonth` concatenation) and of `create_duration` (the row-wise sum) is
 * written here as functions, together with one function per transform that
 * gives the transform's outcome and the frame it leaves behind. The class in
 * feature_engineering.dfy performs the same steps in place and is proved to
 * agree with these functions.
 */
module Transforms {
  import opened PyStr
  import opened Values

  type Frame = map<string, seq<Value>>

  const MonthCol := "arrival_date_month"
  const YearCol := "arrival_date_year"
  const KeyCol := "YearMonth"
  const WeekendCol := "stays_in_weekend_nights"
  const WeekCol := "stays_in_week_nights"
  const DurationCol := "duration"

  /** All columns of a DataFrame share its row index, so they have one length. */
  ghost predicate Rectangular(df: Frame)
  {
    forall a, b :: a in df && b in df ==> |df[a]| == |df[b]|
  }

  /** Setting a column to as many cells as another column has keeps the frame a table. */
  lemma SetColumnKeepsRectangular(df: Frame, c: string, d: string, col: seq<Value>)
    requires Rectangular(df) && d in df && |col| == |df[d]|
    ensures Rectangular(df[c := col])
  {
  }

  /** Every column has `n` rows. */
  ghost predicate Rows(df: Frame, n: nat)
  {
    forall c :: c in df ==> |df[c]| == n
  }

  /** What a transform reports (returned normally or raised) and the frame it leaves behind. */
  datatype Step = Step(outcome: Outcome, frame: Frame)

  // ---------------------------------------------------------------------------
  // Row-wise application, as pandas' `Series.map` does it
  // ---------------------------------------------------------------------------

  /**
   * Apply `f` to every cell in row order. The first cell on which `f` fails
   * aborts the whole map with that failure, and no column is produced.
   */
  function MapRows(col: seq<Value>, f: Value -> Result<Value>): (r: Result<seq<Value>>)
    ensures r.Ok? <==> forall i :: 0 <= i < |col| ==> f(col[i]).Ok?
    ensures r.Ok? ==> |r.value| == |col| && forall i :: 0 <= i < |col| ==> r.value[i] == f(col[i]).value
    ensures r.Err? ==> exists k :: 0 <= k < |col| && f(col[k]) == Err(r.error)
                                   && forall j :: 0 <= j < k ==> f(col[j]).Ok?
  {
    if |col| == 0 then Ok([])
    else match f(col[0])
      case Err(e) => Err(e)
      case Ok(v) =>
        match MapRows(col[1..], f)
        case Err(e) => Err(e)
        case Ok(rest) => Ok([v] + rest)
  }

  // ---------------------------------------------------------------------------
  // create_month_year, row by row
  // ---------------------------------------------------------------------------

  /** The twelve English month names, January first (`calendar.month_name[1:]`). */
  const MonthNames: seq<string> := [
    "January", "February", "March", "April", "May", "June",
    "July", "August", "September", "October", "November", "December"
  ]

  /**
   * `months.index(m) + 1`: the 1-based position of a month name. Only a string
   * that equals one of the names exactly succeeds; any other cell, an integer
   * included, fails as `list.index` does.
   */
  function MonthIndex(v: Value): (r: Result<int>)
    ensures r.Ok? <==> v.Str? && v.s in MonthNames
    ensures r.Ok? ==> 1 <= r.value <= 12 && MonthNames[r.value - 1] == v.s
    ensures r.Err? ==> r.error == ValueError(v)
  {
    match v
    case Int(_) => Err(ValueError(v))
    case Str(name) =>
      match IndexOf(MonthNames, name)
      case Some(k) => Ok(k + 1)
      case None => Err(ValueError(v))
  }

  /** Each name is numbered by its place in the list: January is 1 and December 12. */
  lemma MonthNamesNumbered(k: nat)
    requires k < 12
    ensures MonthIndex(Str(MonthNames[k])) == Ok(k + 1)
  {
    MonthNamesDistinct();
  }

  /** No name appears twice, so `list.index` finds each name at its own place. */
  lemma MonthNamesDistinct()
    ensures forall a, b :: 0 <= a < b < 12 ==> MonthNames[a] != MonthNames[b]
  {
    forall a, b | 0 <= a < b < 12
      ensures MonthNames[a] != MonthNames[b]
    {
      // length, first and third letter tell the twelve names apart
      assert (|MonthNames[a]|, MonthNames[a][0], MonthNames[a][2])
          != (|MonthNames[b]|, MonthNames[b][0], MonthNames[b][2]);
    }
  }

  /**
   * `str(y).split("20")[1]` on the text of a year: the second part of the split,
   * or an index error when the split gives only one part.
   */
  function SplitSegment1(s: string): (r: Result<string>)
    ensures r.Err? ==> r.error == IndexError(s)
    ensures r.Ok? ==> |r.value| + 2 <= |s|
  {
    var parts := Split(s, "20");
    if |parts| < 2 then Err(IndexError(s))
    else
      assert |parts[1]| + 2 <= |s| by {
        var i := Find(s, "20", 0).value;
        SplitAfterFirst(s, "20", i);
        SplitFirstPart(s[i + 2..], "20");
      }
      Ok(parts[1])
  }

  /** The year split succeeds exactly when "20" occurs in the text. */
  lemma SplitSegment1Fails(s: string)
    ensures SplitSegment1(s).Ok? <==> Contains(s, "20")
    ensures SplitSegment1(s).Err? ==> SplitSegment1(s).error == IndexError(s)
  {
    SplitHasSecondPart(s, "20");
  }

  /**
   * With `i` the first "20" in `s`, the year split gives the text that starts
   * right after it and runs to the next "20" or to the end of `s`, and holds no
   * "20" itself.
   */
  lemma SplitSegment1Between(s: string, i: nat)
    requires OccursAt(s, "20", i)
    requires forall j: nat :: j < i ==> !OccursAt(s, "20", j)
    ensures SplitSegment1(s).Ok?
    ensures var t := SplitSegment1(s).value;
      i + 2 + |t| <= |s| && s[i + 2..i + 2 + |t|] == t
      && (forall j: nat :: !OccursAt(t, "20", j))
      && (i + 2 + |t| == |s| || OccursAt(s, "20", i + 2 + |t|))
  {
    SplitSecondPart(s, "20", i);
  }

  /** `create_month_year` on one month cell: the name becomes its number. */
  function MonthCell(v: Value): Result<Value>
  {
    match MonthIndex(v)
    case Ok(k) => Ok(Int(k))
    case Err(e) => Err(e)
  }

  /** `create_month_year` on one year cell: the year becomes its year split, a string. */
  function YearCell(v: Value): Result<Value>
  {
    match SplitSegment1(AsString(v))
    case Ok(t) => Ok(Str(t))
    case Err(e) => Err(e)
  }

  /** One `YearMonth` cell: both cells as strings, joined by "/", nothing padded. */
  function YearMonthKey(year: Value, month: Value): (r: Value)
    ensures r.Str? && |r.s| > |AsString(year)|
    ensures r.s[..|AsString(year)|] == AsString(year) && r.s[|AsString(year)|] == '/'
    ensures month.Int? && month.i >= 0 ==> LastIndexOf(r.s, '/') == Some(|AsString(year)|)
  {
    var key := AsString(year) + "/" + AsString(month);
    assert key[..|AsString(year)|] == AsString(year);
    if month.Int? && month.i >= 0 then
      SeparatorIsLast(AsString(year), month.i);
      Str(key)
    else
      Str(key)
  }

  /** No "/" follows the one after the year, since a month number renders as digits only. */
  lemma SeparatorIsLast(year: string, month: nat)
    ensures LastIndexOf(year + "/" + IntToString(month), '/') == Some(|year|)
  {
    var digits := IntToString(month);
    assert '/' !in digits by {
      assert forall k :: 0 <= k < |digits| ==> IsDigit(digits[k]);
    }
    assert year + "/" + digits == year + ['/'] + digits;
    LastIndexOfSeparator(year, '/', digits);
  }

  /** Read a `YearMonth` key back: the text before the last "/" and the number after it. */
  function ParseYearMonth(key: string): Option<(string, nat)>
  {
    match LastIndexOf(key, '/')
    case None => None
    case Some(j) =>
      var digits := key[j + 1..];
      if |digits| > 0 && AllDigits(digits)
      then Some((key[..j], DigitsValue(digits)))
      else None
  }

  /** A key built from any year string and a month number reads back as that pair. */
  lemma YearMonthKeyRoundTrip(year: string, month: nat)
    ensures ParseYearMonth(YearMonthKey(Str(year), Int(month)).s) == Some((year, month))
  {
    var digits := NatToString(month);
    var key := year + ['/'] + digits;
    KeyText(year, month);
    assert '/' !in digits by {
      assert forall k :: 0 <= k < |digits| ==> IsDigit(digits[k]);
    }
    LastIndexOfSeparator(year, '/', digits);
    assert key[|year| + 1..] == digits;
    assert key[..|year|] == year;
    ParseYearMonthAt(key, |year|);
    NatToStringRoundTrip(month);
  }

  lemma KeyText(year: string, month: nat)
    ensures YearMonthKey(Str(year), Int(month)).s == year + ['/'] + NatToString(month)
  {
    assert AsString(Int(month)) == NatToString(month);
  }

  lemma ParseYearMonthAt(key: string, j: nat)
    requires LastIndexOf(key, '/') == Some(j)
    requires |key[j + 1..]| > 0 && AllDigits(key[j + 1..])
    ensures ParseYearMonth(key) == Some((key[..j], DigitsValue(key[j + 1..])))
  {
  }

  /** Worked cases of the year split: 2023 gives "23" and 2000 gives "00". */
  lemma YearSplitExamples()
    ensures SplitSegment1("2023") == Ok("23")
    ensures SplitSegment1("2000") == Ok("00")
  {
    assert Split("2023", "20") == ["", "23"] by {
      assert Find("2023", "20", 0) == Some(0);
      assert "2023"[2..] == "23";
      assert Find("23", "20", 0) == None by {
        assert "23"[0..2][1] != "20"[1];
        assert Find("23", "20", 1) == None;
      }
    }
    assert Split("2000", "20") == ["", "00"] by {
      assert Find("2000", "20", 0) == Some(0);
      assert "2000"[2..] == "00";
      assert Find("00", "20", 0) == None by {
        assert "00"[0..2][0] != "20"[0];
        assert Find("00", "20", 1) == None;
      }
    }
  }

  /** A second "20" ends the segment: 2020 gives the empty string. */
  lemma YearSplitRepeated()
    ensures SplitSegment1("2020") == Ok("")
  {
    assert Find("2020", "20", 0) == Some(0);
    assert "2020"[2..] == "20";
    assert Find("20", "20", 0) == Some(0);
    assert "20"[2..] == "";
    assert Split("", "20") == [""];
    assert Split("20", "20") == ["", ""];
  }

  /** A year without "20", such as 1999, has no segment. */
  lemma YearSplitMissing()
    ensures SplitSegment1("1999") == Err(IndexError("1999"))
  {
    assert Find("1999", "20", 2) == None by {
      assert "1999"[2..4][0] != "20"[0];
      assert Find("1999", "20", 3) == None;
    }
    assert Find("1999", "20", 1) == None by { assert "1999"[1..3][0] != "20"[0]; }
    assert Find("1999", "20", 0) == None by { assert "1999"[0..2][0] != "20"[0]; }
  }

  /**
   * An integer year is read through `str()`, sign included: -2015 becomes
   * "-2015", which splits into "-" and "15", so its segment is "15".
   */
  lemma YearSplitNegative()
    ensures YearCell(Int(-2015)) == Ok(Str("15"))
  {
    var s := IntToString(-2015);
    assert s == "-2015" by { RenderMinus2015(); }
    assert Find(s, "20", 0) == Some(1) by {
      assert s[0..2][0] != "20"[0];
      assert s[1..3] == "20";
    }
    assert s[3..] == "15";
    assert Find("15", "20", 0) == None by {
      assert "15"[0..2][0] != "20"[0];
      assert Find("15", "20", 1) == None;
    }
    assert Split(s, "20") == ["-", "15"];
  }

  lemma RenderMinus2015()
    ensures IntToString(-2015) == "-2015"
  {
    assert NatToString(2) == "2";
    assert NatToString(20) == "20";
    assert NatToString(201) == "201";
  }

  /** The month of a key is not padded: March 2023 gives "23/3", October "23/10". */
  lemma YearMonthKeyExamples()
    ensures YearMonthKey(Str("23"), Int(3)) == Str("23/3")
    ensures YearMonthKey(Str("23"), Int(10)) == Str("23/10")
  {
    assert NatToString(10) == NatToString(1) + [DigitChar(0)];
  }

  /** Every month name starts with a capital letter. */
  lemma MonthNamesCapitalised()
    ensures forall a :: 0 <= a < 12 ==> |MonthNames[a]| > 0 && 'A' <= MonthNames[a][0] <= 'Z'
  {
    forall a | 0 <= a < 12 ensures |MonthNames[a]| > 0 && 'A' <= MonthNames[a][0] <= 'Z' {
      assert MonthNames[a][0] in "JFMASOND";
    }
  }

  /**
   * The match is case-sensitive: a name written in lower case, such as "march",
   * is not a month and fails the lookup.
   */
  lemma MonthIndexCaseSensitive(s: string)
    requires |s| > 0 && 'a' <= s[0] <= 'z'
    ensures MonthIndex(Str(s)) == Err(ValueError(Str(s)))
  {
    MonthNamesCapitalised();
  }

  // ---------------------------------------------------------------------------
  // create_month_year on the whole frame
  // ---------------------------------------------------------------------------

  /** The `YearMonth` column built from the converted year and month columns. */
  function KeyColumn(years: seq<Value>, months: seq<Value>): seq<Value>
    requires |years| == |months|
  {
    seq(|years|, i requires 0 <= i < |years| => YearMonthKey(years[i], months[i]))
  }

  /**
   * Every key of the `YearMonth` column built from a year text and a month
   * number reads back, at its last "/", as exactly that row's year and month.
   */
  lemma KeyColumnReadsBack(years: seq<Value>, months: seq<Value>)
    requires |years| == |months|
    ensures forall i :: 0 <= i < |years| && years[i].Str? && months[i].Int? && months[i].i >= 0 ==>
      KeyColumn(years, months)[i].Str?
      && ParseYearMonth(KeyColumn(years, months)[i].s) == Some((years[i].s, months[i].i as nat))
  {
    forall i | 0 <= i < |years| && years[i].Str? && months[i].Int? && months[i].i >= 0 {
      YearMonthKeyRoundTrip(years[i].s, months[i].i);
    }
  }

  /**
   * `create_month_year`: convert the month column, then the year column, then
   * add `YearMonth`. Each step assigns its column before the next starts, so a
   * failure in the year step leaves the month column already converted.
   */
  function MonthYear(df: Frame): (r: Step)
    requires Rectangular(df)
    ensures Rectangular(r.frame)
    ensures r.outcome.Pass? ==> MonthCol in df && YearCol in df && r.frame.Keys == df.Keys + {KeyCol}
    ensures r.outcome.Fail? ==> r.frame.Keys == df.Keys
    ensures forall c :: c in df && c != MonthCol && c != YearCol && c != KeyCol ==> r.frame[c] == df[c]
    ensures r.outcome.Fail? ==> forall c :: c in df && c != MonthCol ==> r.frame[c] == df[c]
  {
    if MonthCol !in df then Step(Fail(KeyError(MonthCol)), df)
    else match MapRows(df[MonthCol], MonthCell)
      case Err(e) => Step(Fail(e), df)
      case Ok(months) =>
        SetColumnKeepsRectangular(df, MonthCol, MonthCol, months);
        var df1 := df[MonthCol := months];
        if YearCol !in df1 then Step(Fail(KeyError(YearCol)), df1)
        else match MapRows(df1[YearCol], YearCell)
          case Err(e) => Step(Fail(e), df1)
          case Ok(years) =>
            SetColumnKeepsRectangular(df1, YearCol, YearCol, years);
            var df2 := df1[YearCol := years];
            SetColumnKeepsRectangular(df2, KeyCol, YearCol, KeyColumn(years, months));
            Step(Pass, df2[KeyCol := KeyColumn(years, months)])
  }

  /**
   * `create_month_year` succeeds exactly when both columns exist, every month
   * cell is a month name and the text of every year cell contains "20".
   */
  lemma MonthYearPasses(df: Frame)
    requires Rectangular(df)
    ensures MonthYear(df).outcome.Pass? <==>
      MonthCol in df && YearCol in df
      && (forall i :: 0 <= i < |df[MonthCol]| ==> df[MonthCol][i].Str? && df[MonthCol][i].s in MonthNames)
      && (forall i :: 0 <= i < |df[YearCol]| ==> Contains(AsString(df[YearCol][i]), "20"))
  {
    forall v ensures YearCell(v).Ok? <==> Contains(AsString(v), "20") {
      SplitSegment1Fails(AsString(v));
    }
  }

  /**
   * After a successful `create_month_year`, row `i` holds the month's number,
   * the year split of the year, and the key "<year split>/<month number>".
   */
  lemma MonthYearRow(df: Frame, i: int)
    requires Rectangular(df) && MonthYear(df).outcome.Pass?
    requires MonthCol in df && 0 <= i < |df[MonthCol]|
    ensures var out := MonthYear(df).frame;
      var m := MonthIndex(df[MonthCol][i]);
      var y := SplitSegment1(AsString(df[YearCol][i]));
      m.Ok? && y.Ok?
      && out[MonthCol][i] == Int(m.value)
      && out[YearCol][i] == Str(y.value)
      && out[KeyCol][i] == Str(y.value + "/" + NatToString(m.value))
  {
  }

  /** The row count is kept, whatever the outcome. */
  lemma MonthYearKeepsRows(df: Frame, n: nat)
    requires Rows(df, n)
    ensures Rectangular(df) && Rows(MonthYear(df).frame, n)
  {
  }

  /** A cell that is not a month name fails the call before anything is assigned. */
  lemma MonthYearBadMonth(df: Frame, i: int)
    requires Rectangular(df) && MonthCol in df
    requires 0 <= i < |df[MonthCol]| && !(df[MonthCol][i].Str? && df[MonthCol][i].s in MonthNames)
    ensures MonthYear(df).outcome.Fail? && MonthYear(df).outcome.error.ValueError?
    ensures MonthYear(df).frame == df
  {
  }

  /**
   * A year without "20" fails the call with an index error, but only after the
   * month column has been converted: the frame keeps the converted months and
   * the original years, and gains no `YearMonth`.
   */
  lemma MonthYearBadYear(df: Frame, i: int)
    requires Rectangular(df) && MonthCol in df && YearCol in df
    requires forall k :: 0 <= k < |df[MonthCol]| ==> df[MonthCol][k].Str? && df[MonthCol][k].s in MonthNames
    requires 0 <= i < |df[YearCol]| && !Contains(AsString(df[YearCol][i]), "20")
    ensures var r := MonthYear(df);
      r.outcome.Fail? && r.outcome.error.IndexError?
      && r.frame.Keys == df.Keys
      && r.frame[YearCol] == df[YearCol]
      && |r.frame[MonthCol]| == |df[MonthCol]|
      && forall k :: 0 <= k < |df[MonthCol]| ==> r.frame[MonthCol][k] == Int(MonthIndex(df[MonthCol][k]).value)
  {
    var months := MapRows(df[MonthCol], MonthCell);
    assert months.Ok?;
    var df1 := df[MonthCol := months.value];
    assert df1[YearCol] == df[YearCol];
    SplitSegment1Fails(AsString(df[YearCol][i]));
    assert YearCell(df[YearCol][i]).Err?;
    var years := MapRows(df1[YearCol], YearCell);
    assert years.Err?;
    assert MonthYear(df) == Step(Fail(years.error), df1);
  }

  /** On a frame with at least one row, a second `create_month_year` fails and changes nothing. */
  lemma MonthYearTwiceFails(df: Frame)
    requires Rectangular(df) && MonthYear(df).outcome.Pass?
    requires MonthCol in df && |df[MonthCol]| > 0
    ensures var once := MonthYear(df).frame;
      MonthYear(once) == Step(Fail(ValueError(once[MonthCol][0])), once)
  {
    var once: Frame := MonthYear(df).frame;
    assert once[MonthCol][0].Int?;
  }

  // ---------------------------------------------------------------------------
  // create_duration
  // ---------------------------------------------------------------------------

  /** The row-wise sum of two aligned columns; the first pair that does not add aborts it. */
  function SumRows(a: seq<Value>, b: seq<Value>): (r: Result<seq<Value>>)
    requires |a| == |b|
    ensures r.Ok? <==> forall i :: 0 <= i < |a| ==> Plus(a[i], b[i]).Ok?
    ensures r.Ok? ==> |r.value| == |a| && forall i :: 0 <= i < |a| ==> r.value[i] == Plus(a[i], b[i]).value
    ensures r.Err? ==> exists k :: 0 <= k < |a| && Plus(a[k], b[k]) == Err(r.error)
  {
    if |a| == 0 then Ok([])
    else match Plus(a[0], b[0])
      case Err(e) => Err(e)
      case Ok(v) =>
        match SumRows(a[1..], b[1..])
        case Err(e) => Err(e)
        case Ok(rest) => Ok([v] + rest)
  }

  /**
   * `create_duration`: read the weekend column, then the week column, and set
   * `duration` to their row-wise sum. Nothing is assigned unless all of it succeeds.
   */
  function WithDuration(df: Frame): (r: Step)
    requires Rectangular(df)
    ensures Rectangular(r.frame)
    ensures r.outcome.Pass? ==> WeekendCol in df && WeekCol in df && r.frame.Keys == df.Keys + {DurationCol}
    ensures r.outcome.Fail? ==> r.frame == df
    ensures forall c :: c in df && c != DurationCol ==> r.frame[c] == df[c]
  {
    if WeekendCol !in df then Step(Fail(KeyError(WeekendCol)), df)
    else if WeekCol !in df then Step(Fail(KeyError(WeekCol)), df)
    else match SumRows(df[WeekendCol], df[WeekCol])
      case Err(e) => Step(Fail(e), df)
      case Ok(sum) =>
        SetColumnKeepsRectangular(df, DurationCol, WeekendCol, sum);
        Step(Pass, df[DurationCol := sum])
  }

  /** `create_duration` succeeds exactly when both columns exist and every row's pair adds. */
  lemma DurationPasses(df: Frame)
    requires Rectangular(df)
    ensures WithDuration(df).outcome.Pass? <==>
      WeekendCol in df && WeekCol in df
      && forall i :: 0 <= i < |df[WeekendCol]| ==> Plus(df[WeekendCol][i], df[WeekCol][i]).Ok?
  {
  }

  /** After a successful `create_duration`, `duration` in row `i` is the sum of the two stays. */
  lemma DurationRow(df: Frame, i: int)
    requires Rectangular(df) && WithDuration(df).outcome.Pass?
    requires WeekendCol in df && 0 <= i < |df[WeekendCol]|
    requires df[WeekendCol][i].Int? && df[WeekCol][i].Int?
    ensures WithDuration(df).frame[DurationCol][i] == Int(df[WeekendCol][i].i + df[WeekCol][i].i)
  {
  }

  /** Running `create_duration` again recomputes the same column: the call is idempotent. */
  lemma DurationIdempotent(df: Frame)
    requires Rectangular(df)
    ensures WithDuration(WithDuration(df).frame) == WithDuration(df)
  {
    var once := WithDuration(df);
    if once.outcome.Pass? {
      assert once.frame[WeekendCol] == df[WeekendCol];
      assert once.frame[WeekCol] == df[WeekCol];
      assert once.frame[DurationCol := once.frame[DurationCol]] == once.frame;
    }
  }

  // ---------------------------------------------------------------------------
  // binning: the new column's name and the labels of the bin edges
  // ---------------------------------------------------------------------------

  /** A bin's range: the `(low, high)` pair its label shows. */
  datatype Label = Label(low: real, high: real)

  /** The column `binning` writes: `f'bin_{prop}'`. */
  function BinColumn(prop: string): (name: string)
    ensures |name| == |prop| + 4 && name[..4] == "bin_" && name[4..] == prop
    ensures name != prop
  {
    "bin_" + prop
  }

  /** One label per pair of neighbouring edges: one fewer label than edges, none for fewer than two. */
  function BinLabels(edges: seq<real>): (r: seq<Label>)
    ensures |r| == if |edges| == 0 then 0 else |edges| - 1
    ensures forall i :: 0 <= i < |r| ==> r[i] == Label(edges[i], edges[i + 1])
  {
    if |edges| < 2 then []
    else [Label(edges[0], edges[1])] + BinLabels(edges[1..])
  }

  /**
   * For strictly increasing edges (what the quantile cut returns after dropping
   * duplicates) the labels are non-empty ranges that run from the first edge to
   * the last, each starting where the previous one ends.
   */
  lemma BinLabelsCover(edges: seq<real>)
    requires |edges| >= 2
    requires forall i :: 0 <= i < |edges| - 1 ==> edges[i] < edges[i + 1]
    ensures var r := BinLabels(edges);
      |r| == |edges| - 1 && r[0].low == edges[0] && r[|r| - 1].high == edges[|edges| - 1]
      && (forall i :: 0 <= i < |r| ==> r[i].low < r[i].high)
      && (forall i :: 0 <= i < |r| - 1 ==> r[i].high == r[i + 1].low)
  {
  }
}

=== FILE: values.dfy ===
/**
 * Cells of the table and the ways a transform can fail.
 *
 * A pandas column may hold integers or strings; the transforms turn one into
 * the other (month names into numbers, years into two-digit strings), so a
 * cell is either kind. Every exception the transforms can raise becomes an
 * `Error`, returned instead of raised.
 */
module Values {
  import opened PyStr

  datatype Value = Int(i: int) | Str(s: string)

  datatype Error =
    | KeyError(column: string)               // a column the frame does not have
    | ValueError(item: Value)                // `list.index` of a value not in the list
    | IndexError(text: string)               // `split(...)[1]` of a string that did not split
    | TypeError(left: Value, right: Value)   // `+` of two cells that do not add

  datatype Result<T> = Ok(value: T) | Err(error: Error)

  datatype Outcome = Pass | Fail(error: Error)

  /** Python's `str(v)`, and pandas' `astype(str)` on one cell. */
  function AsString(v: Value): string
  {
    match v
    case Int(i) => IntToString(i)
    case Str(s) => s
  }

  /** Python's `a + b` on two cells: integers add, strings concatenate, a mix raises. */
  function Plus(a: Value, b: Value): Result<Value>
  {
    match (a, b)
    case (Int(x), Int(y)) => Ok(Int(x + y))
    case (Str(x), Str(y)) => Ok(Str(x + y))
    case _ => Err(TypeError(a, b))
  }
}
